=== FILE: README.md ===
# Payment gateway core, modelled in Dafny

This project models the decision and bookkeeping logic of a payment gateway. The gateway accepts payment submissions and settles each one through a "default" or a "fallback" payment processor. It records settled payments in an in-memory ledger, and it serves per-processor summaries over an optional time window. The logic modelled is:

- **Circuit breaker** (`breakers.dfy`, module `Breakers`). This is the per-processor Closed / Open / HalfOpen state machine. It counts failures, records the time of the latest failure, and rejects calls while an Open circuit is still cooling down.
- **Health throttle** (`health.dfy`, module `Health`). This is the check the gateway runs before each settlement. It asks the shared store for a 5-second marker, then consults a local map of probe times, and probes the processor's liveness endpoint. The module also models the store itself (set-if-absent with expiry) to prove the fleet-wide probe bound.
- **Dispatcher** (`dispatch.dfy`, module `Dispatch`). It makes a settlement attempt, and chains default-then-fallback through the two breakers. It tags the payment and stores it on the first success.
- **Money rendering** (`money.dfy`, module `Money`). This covers the cents-to-decimal text conversion with Go's truncating `/` and `%`, Go's `%d` rendering, and a reader for both.
- **Ledger** (`storage.dfy`, module `Storage`). The ledger keeps an append-only history plus running per-processor totals. Its summary query is answered from those totals or by an inclusive window scan.
- **Handlers** (`handlers.dfy`, module `Handlers`). This covers the submission validation chain, the summary-query bound handling and the summary JSON text.
- **Records** (`models.dfy`, module `Models`). These are `Payment`, `ProcessorSummary` and `PaymentSummary`, mirroring `internal/pkg/models/models.go:6-21`, plus the error values of the processor package.

The model is functional. Every operation is a pure function from the old state to the new state. The clock is an explicit `now: int` in nanoseconds. The shared store's SetNX answer, the health endpoint's reply and the settlement call's outcome are inputs. The settlement outcome is one of: deadline fired, transport error, or a response status. JSON parsing, float rounding and RFC 3339 parsing are also inputs.

In these places the code's behaviour is easy to misread; the model follows it:

- A store error on SetNX counts as "not acquired", so the processor is declared healthy at once. The code does not degrade to the local map in that case (processor.go:175-176).
- The Open-circuit cooldown is strict: a call at exactly `lastFailTime + timeout` is still rejected (processor.go:60).
- Every failure re-stamps `lastFailTime`, not only the one that opens the circuit (processor.go:70).
- The time window is inclusive at both ends (memory.go:52-57).
- `totalAmount` is emitted unquoted (handlers.go:109-115).
- The summary renders amounts with the gateway's own `CentsToDecimalString`, including its wrong rendering of negative amounts (see Findings).
- The shared store keeps a key until the clock is strictly past its expiry, as Redis does.

## Model

| member | source | states |
|---|---|---|
| Breakers.NewCircuitBreaker | internal/pkg/processor/processor.go:48-54 | A new breaker is Closed with no failures and keeps the configured threshold and cooldown; it satisfies the Open/HalfOpen ⇒ failures ≥ threshold invariant |
| Breakers.Call | internal/pkg/processor/processor.go:56-81 | While Open and `now - lastFailTime <= timeout`: returns CircuitOpen, does not run the attempt, changes nothing. Otherwise the attempt runs and its result is returned. A failure adds exactly 1, stamps `now`, and opens the circuit once the count reaches the threshold. A success is the only thing that zeroes the count, and it closes the circuit. The invariant is preserved |
| Breakers.HalfOpenTrial | internal/pkg/processor/processor.go:59-80 | After the cooldown the trial call always runs; a failure re-opens the circuit and a success closes it |
| Breakers.CooldownRejectsAll | internal/pkg/processor/processor.go:57-65 | Any number of calls inside the cooldown leave the breaker exactly as it was |
| Breakers.RunKeepsInv | internal/pkg/processor/processor.go:67-80 | Every breaker reachable from a fresh one by any sequence of calls has failures ≥ threshold whenever it is Open or HalfOpen |
| Breakers.ClosedFailRun | internal/pkg/processor/processor.go:67-75 | From Closed, consecutive failures raise the count by one each and keep the circuit Closed until the count reaches the threshold, where it opens |
| Breakers.FreshBreakerOpensAtThreshold | internal/pkg/processor/processor.go:48-75 | From a fresh breaker with threshold ≥ 1, fewer failures than the threshold leave it Closed and exactly that many open it |
| Health.IsHealthy | internal/pkg/processor/processor.go:172-216 | If a store is present and SetNX did not acquire (including on error), the result is healthy with no probe and no local change. Otherwise a local probe time strictly under 5 s old gives healthy with no probe. Otherwise `now` is recorded before probing. A probe is issued exactly when neither throttle applies. Its verdict is eligible iff there was no error, the status is exactly 200, the body parsed and `failing` is false |
| Health.ProbeVerdict | internal/pkg/processor/processor.go:205-215 | A probe reply is eligible iff there was no transport error, the status is exactly 200, the body parsed, and `failing` reads false |
| Health.SetNX | internal/pkg/cache/redis.go:48-50 | Set-if-absent with expiry acquires exactly when the key is absent or the clock is strictly past its expiry, and then stores the new expiry; otherwise the store is unchanged |
| Health.HeldMarkerBlocksProbes | internal/pkg/processor/processor.go:173-177 | While the shared marker outlives every remaining check, no instance probes |
| Health.AtMostOneProbePerWindow | internal/pkg/processor/processor.go:172-190 | Any number of instances, in any interleaving, issue at most one liveness probe for checks that fall within one 5-second window |
| Dispatch.NewPaymentProcessor | internal/pkg/processor/processor.go:83-102 | Both breakers start fresh with threshold 5 and a 30-second cooldown; the local probe map starts empty |
| Dispatch.TryProcessor | internal/pkg/processor/processor.go:131-170 | An ineligible health check fails the attempt with no settlement request. Otherwise the attempt posts, and it succeeds iff the response is 2xx before the deadline, with no transport error |
| Dispatch.GuardedAttempt | internal/pkg/processor/processor.go:108-110 | A breaker that is cooling down answers CircuitOpen with no requests and no change to the probe map; otherwise the attempt's effects and result come through. In both cases the breaker afterwards is the one `Breakers.Call` leaves for the attempt's outcome |
| Dispatch.ProcessPayment | internal/pkg/processor/processor.go:104-129 | On success the ledger is the old ledger with the tagged payment stored once, and only the tag differs from the input. On failure the ledger and the payment are unchanged. The ledger invariant and both breaker invariants are preserved; each breaker's bookkeeping is stated by `Dispatch.DefaultOutcomeRecorded` and `Dispatch.FallbackOutcomeRecorded`. Both attempts write one probe map: after a default success it is what the default attempt left; after a default failure it is what the fallback attempt, run on that map, leaves |
| Dispatch.DefaultFirst | internal/pkg/processor/processor.go:108-116 | When the default attempt succeeds, the payment is tagged "default" and appended once. The fallback breaker is untouched and no fallback URI is requested |
| Dispatch.FallbackOnlyAfterDefault | internal/pkg/processor/processor.go:118-128 | After a default failure, a success tags the payment "fallback" and appends it once; if both fail, the ledger is unchanged |
| Dispatch.SettledOnce | internal/pkg/processor/processor.go:112-126 | A successful dispatch appends exactly one entry at the end, tagged default or fallback, carrying the submitted id, amount and time |
| Dispatch.DefaultOutcomeRecorded | internal/pkg/processor/processor.go:108-110 | Whenever the default attempt runs, a failure adds one to the default breaker's count, stamps the attempt's clock reading and opens the circuit at the threshold; a success zeroes the count and closes the circuit |
| Dispatch.FallbackOutcomeRecorded | internal/pkg/processor/processor.go:118-120 | After a default failure, whenever the fallback attempt runs, the fallback breaker records its outcome in the same way |
| Dispatch.ExpiredDeadlineDropsPayment | internal/pkg/processor/processor.go:104-170 | When the fallback attempt's settlement input is the fired deadline, a payment the default processor did not settle is not settled by the fallback either, and the ledger and payment are unchanged |
| Dispatch.OpenDefaultFallsBack | internal/pkg/processor/processor.go:104-126 | With the default circuit cooling down and the fallback judged healthy and settling, the payment is recorded under fallback. The fallback is judged healthy either by this instance's own probe or because another instance holds the marker. No request reaches the default processor, and the last request is the fallback POST |
| Dispatch.DefaultProbeRecorded | internal/pkg/processor/processor.go:184-190 | Without a shared store and with no probe on record, a dispatch whose default attempt runs probes the default processor and records the attempt's clock reading under "default", and the fallback attempt leaves that entry alone |
| Dispatch.RecentProbeThrottles | internal/pkg/processor/processor.go:181-186 | Without a shared store, a default probe on record less than 5 seconds old keeps a dispatch from probing the default processor |
| Dispatch.LocalThrottleAcrossPayments | internal/pkg/processor/processor.go:104-190 | Without a shared store, a fresh processor's first dispatch probes the default processor, and a second dispatch within 5 seconds does not probe it again |
| Money.IntToStringRoundTrip | internal/pkg/processor/processor.go:236 | Go's `%d` rendering of any integer reads back as that integer |
| Money.CentsToDecimalString | internal/pkg/processor/processor.go:231-250 | The rendering is never empty, uses only digits, "-" and ".", and starts with "-" exactly for a negative amount |
| Money.CentsToDecimalStringShape | internal/pkg/processor/processor.go:231-250 | For cents ≥ 0, a multiple of 100 gives the whole units alone; any other amount gives the whole units, ".", and exactly two fraction digits. For cents < 0 the text starts with "-", and a negative multiple of 100 gives just "-" |
| Money.CentsToDecimalStringRoundTrip | internal/pkg/processor/processor.go:231-250 | For cents ≥ 0 the rendered text reads back as the same cents |
| Money.CentsExamples | internal/pkg/processor/processor.go:231-250 | 0 → "0", 100 → "1", 5 → "0.05", 150 → "1.50", 1990 → "19.90" |
| Money.NegativeCentsMisrendered | internal/pkg/processor/processor.go:237-239 | As written, -100 renders as "-" and -150 as "-.0-50", and neither reads back; the corrected rendering gives "-1" and "-1.50" |
| Money.NegativeCentsNeverReadBack | internal/pkg/processor/processor.go:232-249 | As written, no negative amount renders as text that reads back |
| Money.FormatCents | internal/pkg/processor/processor.go:231-250 | The corrected rendering reads back as its input for every integer, and it starts with "-" exactly for negative amounts |
| Money.FormatAgreesWhenNonNegative | internal/pkg/processor/processor.go:231-250 | On cents ≥ 0 the gateway's rendering and the corrected one are the same text |
| Storage.Tally | internal/pkg/storage/memory.go:50-67 | The window scan counts each payment at most once: both request counts are non-negative and together at most the history's length |
| Storage.NewMemoryStorage | internal/pkg/storage/memory.go:18-22 | A new ledger is empty and its running totals equal the scan of its (empty) history |
| Storage.StorePayment | internal/pkg/storage/memory.go:24-37 | The payment is appended exactly once at the end and earlier entries are unchanged. Exactly one summary gains one request and the amount: default for tag "default", fallback for any other tag. The other summary is unchanged, and running totals = scan of history is preserved |
| Storage.GetSummary | internal/pkg/storage/memory.go:39-68 | Unbounded, it returns the running totals, which equal the unbounded scan on a valid ledger. A single present bound is enough to return the scan. The ledger is a value and is never modified |
| Storage.ScanWindow | internal/pkg/storage/memory.go:50-67 | The gateway's loop, with its skip-before-from and skip-after-to tests, computes the scan `Tally` |
| Storage.TallyIsWindowByClass | internal/pkg/storage/memory.go:51-64 | Each bounded summary is the count and amount sum of those in-window payments (not before `from`, not after `to`, absent bounds ignored) whose tag puts them in its class |
| Storage.WindowRequestCount | internal/pkg/storage/memory.go:50-65 | The two windowed request counts add up to the number of in-window payments, which is at most the history length |
| Storage.TotalAmountIsSum | internal/pkg/storage/memory.go:30-36 | The unbounded default and fallback amounts add up to the sum of every stored amount |
| Storage.TallyNonNegative | internal/pkg/storage/memory.go:58-64 | A history of positive amounts gives non-negative counts and totals in every window |
| Storage.StoreAllValid | internal/pkg/storage/memory.go:24-48 | Any ledger built by storing payments holds them in order, and its unbounded query equals the full scan |
| Handlers.PostPayments | internal/app/handlers/handlers.go:30-74 | The first failing check answers 400 with its reason, in order: empty body, invalid json, correlationId is required, amount must be positive. The answer is 202 `{"status":"accepted"}` iff all checks pass, and then the scheduled payment has a non-empty id, positive cents, the request time and an empty tag |
| Handlers.Submit | internal/app/handlers/handlers.go:62-73 | A rejected submission answers 400 and leaves the processor and ledger untouched. Any submission adds at most one ledger entry and keeps the ledger invariant. An accepted submission answers 202 and is always dispatched: the ledger stays as it was or gains exactly the submitted payment tagged "default" or "fallback", and it is tagged "default" whenever the default attempt succeeds. The processor afterwards is the one the dispatch leaves, so breaker and probe-map updates carry over to later submissions, and both breaker invariants are kept |
| Handlers.SubmitKeepsAmountsPositive | internal/app/handlers/handlers.go:56-66 | Only positive amounts ever reach the ledger |
| Handlers.ParseBound | internal/app/handlers/handlers.go:83-93 | A bound is present iff its parameter is non-empty and parses, and then it is the parsed time |
| Handlers.GetPaymentsSummary | internal/app/handlers/handlers.go:76-98 | Whatever the response text reads back as is the ledger's summary over the window given by the parsed bounds. On a valid ledger of positive amounts it always reads back, as the scan over that window |
| Handlers.BuildSummaryResponse | internal/app/handlers/handlers.go:106-116 | The summary text, default section before fallback, with amounts rendered by the gateway's `CentsToDecimalString`, reads back as exactly the summary when both totals are non-negative, and does not read back at all when either total is negative |
| Handlers.LedgerTotalsRenderAsWritten | internal/app/handlers/handlers.go:106-116 | On a valid ledger of positive amounts, every summary total is non-negative and renders with the gateway's formula exactly as with the corrected one |
| Handlers.FirstPaymentScenario | internal/app/handlers/handlers.go:62-73 | Submitting id "abc" with 1990 cents to a fresh gateway is accepted, when its default processor is judged healthy and settles. The default may be judged healthy by this instance's own probe after acquiring the marker, or because another instance holds the marker. The summary is then 1 default request totalling "19.90" and an empty fallback |

## Left out

- HTTP transport, fasthttp request building, and the goroutine/channel `select` race against the 8-second context. Each attempt's outcome is an input: deadline fired, transport error, or a response status. When the deadline and the response are both ready, Go's `select` picks one at random. The model takes whichever the input names.
- The fire-and-forget goroutine per submission. `Submit` runs the processing it schedules in sequence.
- Atomics and `sync.RWMutex`. The model is sequential, so failure-count overshoot under concurrent failures and the lock's snapshot behaviour are not modelled.
- Breakers.Call: the gate check and the failure time stamp share one clock reading `now`. Go's `Call` reads the clock twice, before and after the attempt (processor.go:60, :70).
- Integer widths are not modelled: `failures` is int32 and cents and timestamps are int64. Overflow of `failures` needs more than 2^31 consecutive failures. A running total passes 2^63 cents as soon as accepted amounts add up to that, and any client can send such amounts: two submissions of 5×10^18 cents each pass the positive-amount check (handlers.go:56). Go then wraps the total negative, which the model's unbounded totals do not.
- Dispatch.ProcessPayment: the two attempts share one 8-second context (processor.go:105), but their settlements are independent inputs. After the default attempt has returned on the deadline, the fallback's `select` finds the deadline already fired, and it can only settle if its whole POST has finished before that `select` runs. The model admits a fallback settlement after a default deadline as an ordinary case. `Dispatch.ExpiredDeadlineDropsPayment` states what happens when the fallback input reflects the fired deadline.
- Float handling (`GetFloat64` and `math.Round(amount*100)`) and fastjson parsing. `JsonBody` carries the parsed id and the rounded cents.
- RFC 3339 parsing and formatting. Bounds arrive with their parse result, and timestamps are integers.
- `buildPaymentRequest` (processor.go:218-229). The settlement body's exact text is not modelled; the model records only the URI that is posted to.
- The Redis client wrapper (redis.go) beyond SetNX's answer, and the wiring in server.go, router.go and main.go.
- `GetHealth`, `log.Printf`, and the unused DTOs in models.go:23-36.
- Health.IsHealthy: `failing` is read by fastjson's `GetBool`, which yields false when the field is missing or not a boolean. The model takes the value `GetBool` yields as part of the probe reply.

## Findings

| source | as written | input that shows it | evidently intended | confidence | as-written member | corrected member |
|---|---|---|---|---|---|---|
| internal/pkg/processor/processor.go:237-248 | For negative cents, the whole part is replaced by "-", and the truncated remainder, which is negative, is padded with "0" and printed with its own sign | cents = -150 gives "-.0-50", and cents = -100 gives "-" | A single "-" before the rendering of the magnitude: "-1.50" and "-1" | high (not executed) | Money.NegativeCentsMisrendered | Money.FormatCents |

The summary builder (`Handlers.BuildSummaryResponse`) renders amounts with the rendering as written. Its read-back holds exactly when both totals are non-negative. The ledger only ever receives positive amounts (`Handlers.SubmitKeepsAmountsPositive`, `Storage.TallyNonNegative`). On those totals the as-written rendering gives the same text as the corrected one (`Handlers.LedgerTotalsRenderAsWritten`). So, while every running total stays below 2^63 cents, the defect cannot show in a summary response. Past that bound Go's int64 total wraps negative, and the summary then carries the misrendered text. The model does not follow that case, because its totals are unbounded (see Left out).

=== FILE: breakers.dfy ===
/**
  The per-processor circuit breaker (processor.go, CircuitBreaker), as a pure
  step over an explicit clock. A call first passes the gate (an Open circuit
  rejects until its cooldown has strictly elapsed, then turns HalfOpen), then
  runs the wrapped attempt and records its outcome.
 */
module Breakers {
  import opened Models

  datatype State = Closed | Open | HalfOpen

  datatype CircuitBreaker = CircuitBreaker(
    state: State,
    failures: int,       // failures since the last success
    lastFailTime: int,   // clock reading of the latest failure
    maxFailures: int,    // threshold at which the circuit opens
    timeout: int)        // cooldown before an Open circuit admits a trial call

  /** A breaker as the processor creates it: Closed, no failures, never failed. */
  function NewCircuitBreaker(maxFailures: int, timeout: int): (cb: CircuitBreaker)
    ensures cb.state == Closed && cb.failures == 0 && cb.lastFailTime == 0
    ensures cb.maxFailures == maxFailures && cb.timeout == timeout
    ensures Inv(cb)
  {
    CircuitBreaker(Closed, 0, 0, maxFailures, timeout)
  }

  /** An Open or HalfOpen circuit has seen at least `maxFailures` failures since its last success. */
  predicate Inv(cb: CircuitBreaker) {
    cb.state != Closed ==> cb.failures >= cb.maxFailures
  }

  /** True when an Open circuit is still inside its cooldown: `now - lastFailTime <= timeout`. */
  predicate CoolingDown(cb: CircuitBreaker, now: int) {
    cb.state == Open && now - cb.lastFailTime <= cb.timeout
  }

  /** The outcome of one `Call`: the new breaker, what the call returns, and whether the attempt ran. */
  datatype Step = Step(cb: CircuitBreaker, result: Option<Error>, invoked: bool)

  /**
    One call through the breaker at time `now`, where `outcome` is what the
    wrapped attempt returns if it runs (`None` for success). A circuit that is
    cooling down answers `CircuitOpen` and changes nothing; an Open circuit past
    its cooldown becomes HalfOpen and lets the attempt through.
   */
  function Call(cb: CircuitBreaker, now: int, outcome: Option<Error>): (s: Step)
    ensures CoolingDown(cb, now) ==> s == Step(cb, Some(CircuitOpen), false)
    ensures !CoolingDown(cb, now) ==> s.invoked && s.result == outcome
    ensures s.cb.maxFailures == cb.maxFailures && s.cb.timeout == cb.timeout
    // a failure counts once, is stamped now, and opens the circuit at the threshold
    ensures s.invoked && outcome.Some? ==>
              && s.cb.failures == cb.failures + 1
              && s.cb.lastFailTime == now
              && (s.cb.failures >= cb.maxFailures ==> s.cb.state == Open)
              && (s.cb.failures < cb.maxFailures ==> s.cb.state == (if cb.state == Closed then Closed else HalfOpen))
    // a success is the only thing that clears the count
    ensures s.invoked && outcome.None? ==>
              s.cb == cb.(state := Closed, failures := 0)
    ensures Inv(cb) ==> Inv(s.cb)
  {
    if cb.state == Open && !(now - cb.lastFailTime > cb.timeout) then
      Step(cb, Some(CircuitOpen), false)
    else
      var admitted := if cb.state == Open then cb.(state := HalfOpen) else cb;
      match outcome
      case Some(err) =>
        var failed := admitted.(failures := admitted.failures + 1, lastFailTime := now);
        var next := if failed.failures >= failed.maxFailures then failed.(state := Open) else failed;
        Step(next, outcome, true)
      case None =>
        Step(admitted.(failures := 0, state := Closed), None, true)
  }

  /** After the cooldown, a circuit that respects `Inv` admits one trial call whose outcome alone picks the next state. */
  lemma HalfOpenTrial(cb: CircuitBreaker, now: int, outcome: Option<Error>)
    requires Inv(cb) && cb.state == Open && now - cb.lastFailTime > cb.timeout
    ensures Call(cb, now, outcome).invoked
    ensures outcome.Some? ==> Call(cb, now, outcome).cb.state == Open
    ensures outcome.None? ==> Call(cb, now, outcome).cb.state == Closed
  {
  }

  /** One call's inputs: the clock reading and the attempt's outcome should it run. */
  datatype Attempt = Attempt(now: int, outcome: Option<Error>)

  /** The breaker after a sequence of calls. */
  function Run(cb: CircuitBreaker, attempts: seq<Attempt>): CircuitBreaker
    decreases |attempts|
  {
    if |attempts| == 0 then cb
    else Run(Call(cb, attempts[0].now, attempts[0].outcome).cb, attempts[1..])
  }

  /**
    Every breaker reachable from a fresh one keeps `Inv`: whenever it is Open or
    HalfOpen its failure count is at the threshold or above, since only a success
    lowers the count and a success also closes the circuit.
   */
  lemma {:induction false} RunKeepsInv(max: int, timeout: int, attempts: seq<Attempt>)
    ensures Inv(Run(NewCircuitBreaker(max, timeout), attempts))
  {
    RunPreservesInv(NewCircuitBreaker(max, timeout), attempts);
  }

  lemma {:induction false} RunPreservesInv(cb: CircuitBreaker, attempts: seq<Attempt>)
    requires Inv(cb)
    ensures Inv(Run(cb, attempts))
    decreases |attempts|
  {
    if |attempts| > 0 {
      RunPreservesInv(Call(cb, attempts[0].now, attempts[0].outcome).cb, attempts[1..]);
    }
  }

  /** While the cooldown lasts, any number of calls are all rejected and leave the breaker as it was. */
  lemma {:induction false} CooldownRejectsAll(cb: CircuitBreaker, attempts: seq<Attempt>)
    requires forall i :: 0 <= i < |attempts| ==> CoolingDown(cb, attempts[i].now)
    ensures Run(cb, attempts) == cb
    decreases |attempts|
  {
    if |attempts| > 0 {
      assert CoolingDown(cb, attempts[0].now);
      CooldownRejectsAll(cb, attempts[1..]);
    }
  }

  /** The breaker after a run of failing calls at the given clock readings. */
  function FailRun(cb: CircuitBreaker, nows: seq<int>, err: Error): CircuitBreaker
    decreases |nows|
  {
    if |nows| == 0 then cb else FailRun(Call(cb, nows[0], Some(err)).cb, nows[1..], err)
  }

  /**
    A Closed breaker stays Closed through consecutive failures until the count
    reaches the threshold, at which point it opens; every one of those calls runs.
   */
  lemma {:induction false} ClosedFailRun(cb: CircuitBreaker, nows: seq<int>, err: Error)
    requires cb.state == Closed && |nows| > 0
    requires cb.failures + |nows| <= cb.maxFailures
    ensures FailRun(cb, nows, err).failures == cb.failures + |nows|
    ensures FailRun(cb, nows, err).state == (if cb.failures + |nows| == cb.maxFailures then Open else Closed)
    ensures FailRun(cb, nows, err).lastFailTime == nows[|nows| - 1]
    decreases |nows|
  {
    var next := Call(cb, nows[0], Some(err)).cb;
    if |nows| > 1 {
      assert next.state == Closed;
      ClosedFailRun(next, nows[1..], err);
    }
  }

  /**
    From a fresh breaker with threshold `max >= 1`: fewer than `max` consecutive
    failures leave it Closed, exactly `max` open it.
   */
  lemma FreshBreakerOpensAtThreshold(max: int, timeout: int, nows: seq<int>, err: Error)
    requires max >= 1 && |nows| <= max
    ensures |nows| < max ==> FailRun(NewCircuitBreaker(max, timeout), nows, err).state == Closed
    ensures |nows| == max ==> FailRun(NewCircuitBreaker(max, timeout), nows, err).state == Open
    ensures FailRun(NewCircuitBreaker(max, timeout), nows, err).failures == |nows|
  {
    if |nows| > 0 {
      ClosedFailRun(NewCircuitBreaker(max, timeout), nows, err);
    }
  }

  /** The processor's breakers open after 5 consecutive failures and cool down for 30 seconds. */
  const ProcessorMaxFailures: int := 5
  const ProcessorTimeout: int := 30 * Second
}

=== FILE: dispatch.dfy ===
/**
  The payment processor (processor.go, ProcessPayment and tryProcessor): each
  payment goes through the default processor's breaker and then, only if that
  fails, through the fallback processor's breaker; it is tagged and stored
  once on the first success and dropped if both fail.

  Every network and store interaction is an input: an `AttemptInputs` value
  says what the store, the health endpoint and the settlement call would
  answer at the moment of one attempt.
 */
module Dispatch {
  import opened Models
  import opened Breakers
  import opened Health
  import opened Storage

  /** What the settlement POST came to first: the shared deadline, a client error, or a response status. */
  datatype Settlement = DeadlineFired | TransportFailed | Responded(status: int)

  /** The answers one attempt would receive, and the clock reading it runs at. */
  datatype AttemptInputs = AttemptInputs(now: int, store: StoreReply, probe: ProbeReply, settlement: Settlement)

  /** The processor's state: whether a store is configured, the local probe times, one breaker per processor. */
  datatype Processor = Processor(
    hasCache: bool,
    lastHealthCheck: map<string, int>,
    defaultCB: CircuitBreaker,
    fallbackCB: CircuitBreaker)

  /** A processor as the gateway builds it: no probes yet, both breakers fresh with threshold 5 and a 30-second cooldown. */
  function NewPaymentProcessor(hasCache: bool): (p: Processor)
    ensures p.lastHealthCheck == map[]
    ensures p.defaultCB == p.fallbackCB == NewCircuitBreaker(5, 30 * Second)
    ensures Inv(p.defaultCB) && Inv(p.fallbackCB)
  {
    Processor(hasCache, map[], NewCircuitBreaker(ProcessorMaxFailures, ProcessorTimeout),
              NewCircuitBreaker(ProcessorMaxFailures, ProcessorTimeout))
  }

  function PaymentsUri(processorType: string): string {
    ProcessorUrl(processorType) + "/payments"
  }

  /** A settlement that counts as success: a response with a 2xx status before the deadline. */
  predicate Settled(s: Settlement) {
    s.Responded? && 200 <= s.status < 300
  }

  /** One attempt's effect: the local probe times afterwards, its error if any, and the URIs it requested in order. */
  datatype TryResult = TryResult(lastHealthCheck: map<string, int>, err: Option<Error>, requests: seq<string>)

  /**
    One attempt against `processorType`: an ineligible health check fails it
    with no settlement request; otherwise it succeeds iff the POST answers with
    a 2xx status before the deadline.
   */
  function TryProcessor(
    hasCache: bool, lastHealthCheck: map<string, int>, processorType: string, a: AttemptInputs): (t: TryResult)
    ensures var h := IsHealthy(lastHealthCheck, hasCache, processorType, a.now, a.store, a.probe);
            && t.lastHealthCheck == h.lastHealthCheck
            && (!h.healthy ==> t.err == Some(Unhealthy(processorType)) && PaymentsUri(processorType) !in t.requests)
            && (h.healthy ==> (t.err.None? <==> Settled(a.settlement)) && PaymentsUri(processorType) in t.requests)
  {
    var h := IsHealthy(lastHealthCheck, hasCache, processorType, a.now, a.store, a.probe);
    var probes := if h.probed.Some? then [h.probed.value] else [];
    if !h.healthy then
      TryResult(h.lastHealthCheck, Some(Unhealthy(processorType)), probes)
    else
      var requests := probes + [PaymentsUri(processorType)];
      var err := match a.settlement
        case DeadlineFired => Some(DeadlineExceeded)
        case TransportFailed => Some(TransportError)
        case Responded(status) =>
          if status < 200 || status >= 300 then Some(BadStatus(status)) else None;
      TryResult(h.lastHealthCheck, err, requests)
  }

  /** One attempt run through a processor's breaker; a rejected call leaves the probe times untouched. */
  datatype Leg = Leg(cb: CircuitBreaker, lastHealthCheck: map<string, int>, err: Option<Error>, requests: seq<string>)

  /**
    The attempt as the breaker runs it: a cooling-down breaker rejects it with
    no effect; otherwise the attempt's effects come through and the breaker
    records its outcome as `Call` does.
   */
  function GuardedAttempt(
    cb: CircuitBreaker, hasCache: bool, lastHealthCheck: map<string, int>, processorType: string, a: AttemptInputs): (l: Leg)
    ensures CoolingDown(cb, a.now) ==> l == Leg(cb, lastHealthCheck, Some(CircuitOpen), [])
    ensures !CoolingDown(cb, a.now) ==>
              var t := TryProcessor(hasCache, lastHealthCheck, processorType, a);
              l.lastHealthCheck == t.lastHealthCheck && l.err == t.err && l.requests == t.requests
    ensures l.cb == Call(cb, a.now, TryProcessor(hasCache, lastHealthCheck, processorType, a).err).cb
  {
    var t := TryProcessor(hasCache, lastHealthCheck, processorType, a);
    var step := Call(cb, a.now, t.err);
    if step.invoked then Leg(step.cb, t.lastHealthCheck, step.result, t.requests)
    else Leg(step.cb, lastHealthCheck, step.result, [])
  }

  /** The outcome of processing one payment. */
  datatype Outcome = Outcome(
    processor: Processor,
    storage: MemoryStorage,
    payment: Payment,
    err: Option<Error>,
    requests: seq<string>)

  /**
    Processes one payment: default first; on its success the payment is tagged
    "default" and stored; otherwise fallback, tagged "fallback" on success;
    if both fail the error of the fallback attempt is reported and nothing is stored.
   */
  function ProcessPayment(
    p: Processor, payment: Payment, storage: MemoryStorage, viaDefault: AttemptInputs, viaFallback: AttemptInputs): (o: Outcome)
    ensures o.payment == payment.(processorType := o.payment.processorType)
    ensures o.err.None? ==> o.storage == StorePayment(storage, o.payment)
    ensures o.err.Some? ==> o.storage == storage && o.payment == payment
    ensures Valid(storage) ==> Valid(o.storage)
    ensures Inv(p.defaultCB) && Inv(p.fallbackCB) ==> Inv(o.processor.defaultCB) && Inv(o.processor.fallbackCB)
    ensures o.processor.hasCache == p.hasCache
    // both attempts write the one probe map: the fallback attempt runs on what the default left, and only after a default failure
    ensures var d := GuardedAttempt(p.defaultCB, p.hasCache, p.lastHealthCheck, DefaultTag, viaDefault);
            && (d.err.None? ==> o.processor.lastHealthCheck == d.lastHealthCheck)
            && (d.err.Some? ==>
                  o.processor.lastHealthCheck
                  == GuardedAttempt(p.fallbackCB, p.hasCache, d.lastHealthCheck, FallbackTag, viaFallback).lastHealthCheck)
  {
    var d := GuardedAttempt(p.defaultCB, p.hasCache, p.lastHealthCheck, DefaultTag, viaDefault);
    if d.err.None? then
      var tagged := payment.(processorType := DefaultTag);
      Outcome(p.(defaultCB := d.cb, lastHealthCheck := d.lastHealthCheck),
              StorePayment(storage, tagged), tagged, None, d.requests)
    else
      var f := GuardedAttempt(p.fallbackCB, p.hasCache, d.lastHealthCheck, FallbackTag, viaFallback);
      var p' := p.(defaultCB := d.cb, fallbackCB := f.cb, lastHealthCheck := f.lastHealthCheck);
      if f.err.None? then
        var tagged := payment.(processorType := FallbackTag);
        Outcome(p', StorePayment(storage, tagged), tagged, None, d.requests + f.requests)
      else
        Outcome(p', storage, payment, f.err, d.requests + f.requests)
  }

  /** True when the default processor's guarded attempt succeeds for these inputs. */
  predicate DefaultSucceeds(p: Processor, a: AttemptInputs) {
    GuardedAttempt(p.defaultCB, p.hasCache, p.lastHealthCheck, DefaultTag, a).err.None?
  }

  /**
    Default first: when its attempt succeeds the payment is stored once, tagged
    "default", the fallback breaker is untouched and no fallback URI is requested.
   */
  lemma DefaultFirst(p: Processor, payment: Payment, storage: MemoryStorage, viaDefault: AttemptInputs, viaFallback: AttemptInputs)
    requires DefaultSucceeds(p, viaDefault)
    ensures var o := ProcessPayment(p, payment, storage, viaDefault, viaFallback);
            && o.err.None?
            && o.payment == payment.(processorType := DefaultTag)
            && o.storage.payments == storage.payments + [o.payment]
            && o.processor.fallbackCB == p.fallbackCB
            && PaymentsUri(FallbackTag) !in o.requests
            && HealthUri(FallbackTag) !in o.requests
  {
    var d := GuardedAttempt(p.defaultCB, p.hasCache, p.lastHealthCheck, DefaultTag, viaDefault);
    forall u | u in d.requests
      ensures u == HealthUri(DefaultTag) || u == PaymentsUri(DefaultTag)
    {
    }
    assert HealthUri(FallbackTag) != HealthUri(DefaultTag) && HealthUri(FallbackTag) != PaymentsUri(DefaultTag);
    assert PaymentsUri(FallbackTag) != HealthUri(DefaultTag) && PaymentsUri(FallbackTag) != PaymentsUri(DefaultTag);
  }

  /**
    Fallback only after a default failure: a payment tagged "fallback" means the
    default attempt failed, and when both fail the ledger is unchanged.
   */
  lemma FallbackOnlyAfterDefault(p: Processor, payment: Payment, storage: MemoryStorage, viaDefault: AttemptInputs, viaFallback: AttemptInputs)
    requires !DefaultSucceeds(p, viaDefault)
    ensures var o := ProcessPayment(p, payment, storage, viaDefault, viaFallback);
            && (o.err.None? ==> o.payment.processorType == FallbackTag
                                && o.storage.payments == storage.payments + [o.payment])
            && (o.err.Some? ==> o.storage == storage && o.payment == payment)
  {
  }

  /** A successful dispatch adds exactly one ledger entry, tagged with one of the two processors. */
  lemma SettledOnce(p: Processor, payment: Payment, storage: MemoryStorage, viaDefault: AttemptInputs, viaFallback: AttemptInputs)
    ensures var o := ProcessPayment(p, payment, storage, viaDefault, viaFallback);
            o.err.None? ==>
              && |o.storage.payments| == |storage.payments| + 1
              && o.storage.payments[..|storage.payments|] == storage.payments
              && o.storage.payments[|storage.payments|] == o.payment
              && (o.payment.processorType == DefaultTag || o.payment.processorType == FallbackTag)
              && o.payment.correlationId == payment.correlationId
              && o.payment.amountCents == payment.amountCents
              && o.payment.requestedAt == payment.requestedAt
  {
  }

  /**
    The default breaker records the default attempt whenever it runs: a failure
    adds one to its count, stamps the attempt's clock reading and opens the
    circuit at the threshold; a success clears the count and closes it.
   */
  lemma DefaultOutcomeRecorded(p: Processor, payment: Payment, storage: MemoryStorage, viaDefault: AttemptInputs, viaFallback: AttemptInputs)
    requires !CoolingDown(p.defaultCB, viaDefault.now)
    ensures var o := ProcessPayment(p, payment, storage, viaDefault, viaFallback);
            var cb := o.processor.defaultCB;
            && (!DefaultSucceeds(p, viaDefault) ==>
                  && cb.failures == p.defaultCB.failures + 1
                  && cb.lastFailTime == viaDefault.now
                  && (cb.failures >= p.defaultCB.maxFailures ==> cb.state == Open))
            && (DefaultSucceeds(p, viaDefault) ==> cb == p.defaultCB.(state := Closed, failures := 0))
  {
  }

  /**
    After a default failure, the fallback breaker records the fallback attempt
    whenever it runs, in the same way.
   */
  lemma FallbackOutcomeRecorded(p: Processor, payment: Payment, storage: MemoryStorage, viaDefault: AttemptInputs, viaFallback: AttemptInputs)
    requires !DefaultSucceeds(p, viaDefault)
    requires !CoolingDown(p.fallbackCB, viaFallback.now)
    ensures var o := ProcessPayment(p, payment, storage, viaDefault, viaFallback);
            var cb := o.processor.fallbackCB;
            && (o.err.Some? ==>
                  && cb.failures == p.fallbackCB.failures + 1
                  && cb.lastFailTime == viaFallback.now
                  && (cb.failures >= p.fallbackCB.maxFailures ==> cb.state == Open))
            && (o.err.None? ==> cb == p.fallbackCB.(state := Closed, failures := 0))
  {
  }

  /**
    When the fallback attempt's settlement input is the fired deadline, a
    payment the default processor did not settle is not settled by the
    fallback either, and the ledger is unchanged.
   */
  lemma ExpiredDeadlineDropsPayment(p: Processor, payment: Payment, storage: MemoryStorage, viaDefault: AttemptInputs, viaFallback: AttemptInputs)
    requires !DefaultSucceeds(p, viaDefault)
    requires viaFallback.settlement == DeadlineFired
    ensures var o := ProcessPayment(p, payment, storage, viaDefault, viaFallback);
            && o.err.Some?
            && o.storage == storage
            && o.payment == payment
  {
  }

  /**
    With the default circuit cooling down and the fallback processor judged
    healthy (by a probe of this instance or by another instance holding the
    marker) and settling, the payment is recorded under fallback, no request
    reaches the default processor, and the last request is the fallback POST.
   */
  lemma OpenDefaultFallsBack(p: Processor, payment: Payment, storage: MemoryStorage, viaDefault: AttemptInputs, viaFallback: AttemptInputs)
    requires CoolingDown(p.defaultCB, viaDefault.now)
    requires !CoolingDown(p.fallbackCB, viaFallback.now)
    requires IsHealthy(p.lastHealthCheck, p.hasCache, FallbackTag, viaFallback.now, viaFallback.store, viaFallback.probe).healthy
    requires Settled(viaFallback.settlement)
    ensures var o := ProcessPayment(p, payment, storage, viaDefault, viaFallback);
            && o.err.None?
            && o.payment.processorType == FallbackTag
            && o.storage == StorePayment(storage, payment.(processorType := FallbackTag))
            && o.processor.defaultCB == p.defaultCB
            && HealthUri(DefaultTag) !in o.requests
            && PaymentsUri(DefaultTag) !in o.requests
            && |o.requests| > 0 && o.requests[|o.requests| - 1] == PaymentsUri(FallbackTag)
  {
  }

  /**
    The local throttle carries across payments: without a shared store, a
    default probe made while dispatching one payment keeps the next payment,
    within 5 seconds, from probing the default processor again.
   */
  lemma LocalThrottleAcrossPayments(
    p: Processor, first: Payment, second: Payment, storage: MemoryStorage,
    viaDefault1: AttemptInputs, viaFallback1: AttemptInputs, viaDefault2: AttemptInputs, viaFallback2: AttemptInputs)
    requires !p.hasCache && p.lastHealthCheck == map[]
    requires !CoolingDown(p.defaultCB, viaDefault1.now)
    requires viaDefault1.now <= viaDefault2.now < viaDefault1.now + HealthWindow
    ensures var o1 := ProcessPayment(p, first, storage, viaDefault1, viaFallback1);
            var o2 := ProcessPayment(o1.processor, second, o1.storage, viaDefault2, viaFallback2);
            && HealthUri(DefaultTag) in o1.requests
            && HealthUri(DefaultTag) !in o2.requests
  {
    var o1 := ProcessPayment(p, first, storage, viaDefault1, viaFallback1);
    DefaultProbeRecorded(p, first, storage, viaDefault1, viaFallback1);
    RecentProbeThrottles(o1.processor, second, o1.storage, viaDefault2, viaFallback2);
  }

  /** Without a shared store and with no probe on record, a default attempt that runs probes and records its clock reading. */
  lemma DefaultProbeRecorded(p: Processor, payment: Payment, storage: MemoryStorage, viaDefault: AttemptInputs, viaFallback: AttemptInputs)
    requires !p.hasCache && p.lastHealthCheck == map[]
    requires !CoolingDown(p.defaultCB, viaDefault.now)
    ensures var o := ProcessPayment(p, payment, storage, viaDefault, viaFallback);
            && !o.processor.hasCache
            && DefaultTag in o.processor.lastHealthCheck
            && o.processor.lastHealthCheck[DefaultTag] == viaDefault.now
            && HealthUri(DefaultTag) in o.requests
  {
    assert DefaultTag != FallbackTag;
  }

  /** Without a shared store, a default probe less than 5 seconds old keeps the dispatch from probing the default processor. */
  lemma RecentProbeThrottles(p: Processor, payment: Payment, storage: MemoryStorage, viaDefault: AttemptInputs, viaFallback: AttemptInputs)
    requires !p.hasCache && DefaultTag in p.lastHealthCheck
    requires viaDefault.now - p.lastHealthCheck[DefaultTag] < HealthWindow
    ensures HealthUri(DefaultTag) !in ProcessPayment(p, payment, storage, viaDefault, viaFallback).requests
  {
    var d := GuardedAttempt(p.defaultCB, p.hasCache, p.lastHealthCheck, DefaultTag, viaDefault);
    assert HealthUri(DefaultTag) !in d.requests by {
      assert HealthUri(DefaultTag) != PaymentsUri(DefaultTag);
    }
    assert HealthUri(DefaultTag) != HealthUri(FallbackTag) && HealthUri(DefaultTag) != PaymentsUri(FallbackTag);
  }
}

=== FILE: handlers.dfy ===
/**
  The HTTP handlers (handlers.go): the validation chain of a payment
  submission, the bound handling of a summary query, and the fixed-layout
  JSON text of a summary.

  JSON parsing, float rounding and RFC 3339 parsing are inputs: `JsonBody`
  stands for what fastjson and `math.Round(amount * 100)` produce, and each
  summary bound comes with the result of `time.Parse`.
 */
module Handlers {
  import opened Models
  import opened Money
  import opened Storage
  import opened Dispatch
  import opened Health
  import opened Breakers

  /** The request body after parsing: not JSON, or the `correlationId` string ("" when absent) and the rounded cents (0 when absent). */
  datatype JsonBody = InvalidJson | JsonObject(correlationId: string, amountCents: int)

  datatype Response = Response(status: int, body: string)

  /** What the submission handler answers, and the payment it hands to the processor, if any. */
  datatype Intake = Intake(response: Response, scheduled: Option<Payment>)

  const StatusAccepted: int := 202
  const StatusBadRequest: int := 400

  function ErrorBody(reason: string): string {
    "{\"error\":\"" + reason + "\"}"
  }

  const AcceptedBody: string := "{\"status\":\"accepted\"}"

  /** True when a submission passes every check of the validation chain. */
  predicate Acceptable(body: string, parsed: JsonBody) {
    |body| > 0 && parsed.JsonObject? && parsed.correlationId != "" && parsed.amountCents > 0
  }

  /**
    The submission handler at clock reading `now`. The first failing check
    answers 400 with its reason: empty body, invalid JSON, missing
    correlation id, non-positive amount. Otherwise the handler answers 202 and
    schedules an untagged payment stamped `now`.
   */
  function PostPayments(body: string, parsed: JsonBody, now: int): (r: Intake)
    ensures r.response.status == StatusAccepted <==> Acceptable(body, parsed)
    ensures r.response.status != StatusAccepted ==> r.response.status == StatusBadRequest && r.scheduled.None?
    ensures |body| == 0 ==> r.response.body == ErrorBody("empty body")
    ensures |body| > 0 && parsed.InvalidJson? ==> r.response.body == ErrorBody("invalid json")
    ensures |body| > 0 && parsed.JsonObject? && parsed.correlationId == "" ==>
              r.response.body == ErrorBody("correlationId is required")
    ensures |body| > 0 && parsed.JsonObject? && parsed.correlationId != "" && parsed.amountCents <= 0 ==>
              r.response.body == ErrorBody("amount must be positive")
    ensures Acceptable(body, parsed) ==>
              && r.response.body == AcceptedBody
              && r.scheduled.Some?
              && r.scheduled.value.correlationId == parsed.correlationId != ""
              && r.scheduled.value.amountCents == parsed.amountCents > 0
              && r.scheduled.value.requestedAt == now
              && r.scheduled.value.processorType == ""
  {
    if |body| == 0 then Intake(Response(StatusBadRequest, ErrorBody("empty body")), None)
    else match parsed
      case InvalidJson => Intake(Response(StatusBadRequest, ErrorBody("invalid json")), None)
      case JsonObject(correlationId, amountCents) =>
        if correlationId == "" then
          Intake(Response(StatusBadRequest, ErrorBody("correlationId is required")), None)
        else if amountCents <= 0 then
          Intake(Response(StatusBadRequest, ErrorBody("amount must be positive")), None)
        else
          Intake(Response(StatusAccepted, AcceptedBody), Some(Payment(correlationId, amountCents, now, "")))
  }

  /** The gateway's state: the processor and the ledger. */
  datatype Gateway = Gateway(processor: Processor, storage: MemoryStorage)

  /**
    A submission followed by the processing it schedules (which the gateway
    runs in its own goroutine), given the answers both attempts would get.
    An accepted submission is always dispatched: the ledger either stays as it
    was or gains exactly the submitted payment, tagged with the processor that
    settled it, and a settling default processor always gets it.
   */
  function Submit(g: Gateway, body: string, parsed: JsonBody, now: int, viaDefault: AttemptInputs, viaFallback: AttemptInputs): (r: (Response, Gateway))
    ensures !Acceptable(body, parsed) ==> r.1 == g && r.0.status == StatusBadRequest
    ensures Valid(g.storage) ==> Valid(r.1.storage)
    ensures |r.1.storage.payments| <= |g.storage.payments| + 1
    ensures Acceptable(body, parsed) ==>
              var paid := Payment(parsed.correlationId, parsed.amountCents, now, "");
              && r.0 == Response(StatusAccepted, AcceptedBody)
              && (DefaultSucceeds(g.processor, viaDefault) ==>
                    r.1.storage.payments == g.storage.payments + [paid.(processorType := DefaultTag)])
              && (|| r.1.storage == g.storage
                  || r.1.storage.payments == g.storage.payments + [paid.(processorType := DefaultTag)]
                  || r.1.storage.payments == g.storage.payments + [paid.(processorType := FallbackTag)])
    // the dispatch's breaker and probe-map updates stay with the gateway for later submissions
    ensures Acceptable(body, parsed) ==>
              r.1.processor == ProcessPayment(g.processor, Payment(parsed.correlationId, parsed.amountCents, now, ""),
                                              g.storage, viaDefault, viaFallback).processor
    ensures Inv(g.processor.defaultCB) && Inv(g.processor.fallbackCB) ==>
              Inv(r.1.processor.defaultCB) && Inv(r.1.processor.fallbackCB)
    ensures r.1.processor.hasCache == g.processor.hasCache
  {
    var intake := PostPayments(body, parsed, now);
    match intake.scheduled
    case None => (intake.response, g)
    case Some(payment) =>
      var o := ProcessPayment(g.processor, payment, g.storage, viaDefault, viaFallback);
      SettledOnce(g.processor, payment, g.storage, viaDefault, viaFallback);
      (intake.response, Gateway(o.processor, o.storage))
  }

  /** Every payment the intake can schedule has a positive amount, so every stored one does. */
  predicate PositiveAmounts(storage: MemoryStorage) {
    forall i :: 0 <= i < |storage.payments| ==> storage.payments[i].amountCents > 0
  }

  /** A submission keeps every stored amount positive. */
  lemma SubmitKeepsAmountsPositive(g: Gateway, body: string, parsed: JsonBody, now: int, viaDefault: AttemptInputs, viaFallback: AttemptInputs)
    requires PositiveAmounts(g.storage)
    ensures PositiveAmounts(Submit(g, body, parsed, now, viaDefault, viaFallback).1.storage)
  {
  }

  /**
    On a valid ledger of positive amounts every summary total is non-negative,
    so Go's rendering of it reads back and coincides with `FormatCents`.
   */
  lemma LedgerTotalsRenderAsWritten(storage: MemoryStorage, from: Option<int>, to: Option<int>)
    requires Valid(storage) && PositiveAmounts(storage)
    ensures NonNegativeTotals(GetSummary(storage, from, to))
    ensures var s := GetSummary(storage, from, to);
            && CentsToDecimalString(s.default.totalAmountCents) == FormatCents(s.default.totalAmountCents)
            && CentsToDecimalString(s.fallback.totalAmountCents) == FormatCents(s.fallback.totalAmountCents)
  {
    var s := GetSummary(storage, from, to);
    TallyNonNegative(storage.payments, from, to);
    FormatAgreesWhenNonNegative(s.default.totalAmountCents);
    FormatAgreesWhenNonNegative(s.fallback.totalAmountCents);
  }

  /** A query bound: absent when the parameter is empty or does not parse, the parsed time otherwise. */
  function ParseBound(raw: string, parsed: Option<int>): (b: Option<int>)
    ensures b.Some? <==> |raw| > 0 && parsed.Some?
    ensures b.Some? ==> b == parsed
  {
    if |raw| > 0 then
      match parsed
      case Some(t) => Some(t)
      case None => None
    else None
  }

  // ---------------------------------------------------------------------------
  // Summary text

  const SummaryOpen: string := "{\"default\":{\"totalRequests\":"
  const AmountKey: string := ",\"totalAmount\":"
  const SummaryMiddle: string := "},\"fallback\":{\"totalRequests\":"
  const SummaryClose: string := "}}"

  /** Both totals of a summary are non-negative: the amounts whose rendering reads back. */
  predicate NonNegativeTotals(s: PaymentSummary) {
    s.default.totalAmountCents >= 0 && s.fallback.totalAmountCents >= 0
  }

  /**
    The summary as JSON text, default section first, amounts rendered unquoted
    by `CentsToDecimalString` as the gateway renders them. The text reads back
    as the summary exactly when both totals are non-negative; a negative total
    makes the whole response unreadable.
   */
  function BuildSummaryResponse(s: PaymentSummary): (r: string)
    ensures NonNegativeTotals(s) ==> ReadSummaryResponse(r) == Some(s)
    ensures !NonNegativeTotals(s) ==> ReadSummaryResponse(r) == None
  {
    var d := SectionText(s.default);
    var f := SectionText(s.fallback);
    SectionReadsAsWritten(s.default, SummaryMiddle + (f + SummaryClose));
    SectionReadsAsWritten(s.fallback, SummaryClose);
    SummaryReadsBack(d, f, Readable(s.default), Readable(s.fallback));
    SummaryOpen + (d + (SummaryMiddle + (f + SummaryClose)))
  }

  /** One section's count and amount, `N,"totalAmount":D`; it never holds the brace that closes the section. */
  function SectionText(p: ProcessorSummary): (r: string)
    ensures '}' !in r
  {
    IntTextHasNoBrace(p.totalRequests);
    AmountTextHasNoBrace(p.totalAmountCents);
    IntToString(p.totalRequests) + AmountKey + CentsToDecimalString(p.totalAmountCents)
  }

  /**
    The summary query handler, given the raw bounds and what parsing them gives.
    Whatever its text reads back as is the ledger's summary over the parsed
    window, and on a valid ledger of positive amounts it always reads back.
   */
  function GetPaymentsSummary(
    storage: MemoryStorage, fromRaw: string, fromParsed: Option<int>, toRaw: string, toParsed: Option<int>): (r: string)
    ensures ReadSummaryResponse(r).Some? ==>
              ReadSummaryResponse(r) == Some(GetSummary(storage, ParseBound(fromRaw, fromParsed), ParseBound(toRaw, toParsed)))
    ensures Valid(storage) && PositiveAmounts(storage) ==>
              ReadSummaryResponse(r) == Some(Tally(storage.payments, ParseBound(fromRaw, fromParsed), ParseBound(toRaw, toParsed)))
  {
    var from := ParseBound(fromRaw, fromParsed);
    var to := ParseBound(toRaw, toParsed);
    assert Valid(storage) && PositiveAmounts(storage) ==> NonNegativeTotals(GetSummary(storage, from, to)) by {
      if Valid(storage) && PositiveAmounts(storage) {
        LedgerTotalsRenderAsWritten(storage, from, to);
      }
    }
    BuildSummaryResponse(GetSummary(storage, from, to))
  }

  /** Splits `s` at the first `stop`: the text before it and the rest, starting with `stop` if present. */
  function SplitAt(s: string, stop: char): (string, string)
    decreases |s|
  {
    if |s| == 0 then ("", "")
    else if s[0] == stop then ("", s)
    else
      var (a, b) := SplitAt(s[1..], stop);
      ([s[0]] + a, b)
  }

  lemma {:induction false} SplitAtConcat(a: string, b: string, stop: char)
    requires stop !in a && |b| > 0 && b[0] == stop
    ensures SplitAt(a + b, stop) == (a, b)
    decreases |a|
  {
    if |a| == 0 {
      assert a + b == b;
    } else {
      assert (a + b)[1..] == a[1..] + b;
      assert (a + b)[0] == a[0];
      SplitAtConcat(a[1..], b, stop);
      assert [a[0]] + a[1..] == a;
    }
  }

  /** Drops `prefix` from the front of `s`, if `s` starts with it. */
  function Strip(s: string, prefix: string): Option<string> {
    if |prefix| <= |s| && s[..|prefix|] == prefix then Some(s[|prefix|..]) else None
  }

  lemma StripConcat(prefix: string, rest: string)
    ensures Strip(prefix + rest, prefix) == Some(rest)
  {
    assert (prefix + rest)[..|prefix|] == prefix;
    assert (prefix + rest)[|prefix|..] == rest;
  }

  /** Reads one `"totalRequests":N,"totalAmount":D` section up to the closing brace. */
  function ReadSection(s: string): Option<(ProcessorSummary, string)> {
    var (count, afterCount) := SplitAt(s, ',');
    match (ParseInt(count), Strip(afterCount, AmountKey))
    case (Some(n), Some(afterKey)) =>
      var (amount, rest) := SplitAt(afterKey, '}');
      (match ParseCents(amount)
       case Some(c) => Some((ProcessorSummary(n, c), rest))
       case None => None)
    case _ => None
  }

  /** Reads the summary text back into the two aggregates. */
  function ReadSummaryResponse(text: string): Option<PaymentSummary> {
    match Strip(text, SummaryOpen)
    case None => None
    case Some(t1) =>
      match ReadSection(t1)
      case None => None
      case Some((d, t2)) =>
        match Strip(t2, SummaryMiddle)
        case None => None
        case Some(t3) =>
          match ReadSection(t3)
          case None => None
          case Some((f, t4)) => if t4 == SummaryClose then Some(PaymentSummary(d, f)) else None
  }

  lemma IntTextHasNoComma(i: int)
    ensures ',' !in IntToString(i)
  {
  }

  lemma IntTextHasNoBrace(i: int)
    ensures '}' !in IntToString(i)
  {
  }

  lemma AmountTextHasNoBrace(c: int)
    ensures '}' !in CentsToDecimalString(c)
  {
  }

  /** Whether a summary's rendered section reads back: only with a non-negative total. */
  function Readable(p: ProcessorSummary): Option<ProcessorSummary> {
    if p.totalAmountCents >= 0 then Some(p) else None
  }

  /**
    A section of count text and amount text free of the separators reads as
    the count and the amount's value, and not at all when the amount does not
    read back.
   */
  lemma {:induction false} SectionReads(count: string, amount: string, tail: string, n: int)
    requires ',' !in count && '}' !in amount
    requires ParseInt(count) == Some(n)
    requires |tail| > 0 && tail[0] == '}'
    ensures ReadSection(count + (AmountKey + (amount + tail)))
            == match ParseCents(amount)
               case Some(c) => Some((ProcessorSummary(n, c), tail))
               case None => None
  {
    SplitAtConcat(count, AmountKey + (amount + tail), ',');
    StripConcat(AmountKey, amount + tail);
    SplitAtConcat(amount, tail, '}');
  }

  /** A rendered section reads back as its summary when the total is non-negative, and not at all otherwise. */
  lemma SectionReadsAsWritten(p: ProcessorSummary, tail: string)
    requires |tail| > 0 && tail[0] == '}'
    ensures ReadSection(SectionText(p) + tail) == if p.totalAmountCents >= 0 then Some((p, tail)) else None
  {
    var count := IntToString(p.totalRequests);
    var amount := CentsToDecimalString(p.totalAmountCents);
    IntTextHasNoComma(p.totalRequests);
    AmountTextHasNoBrace(p.totalAmountCents);
    IntToStringRoundTrip(p.totalRequests);
    if p.totalAmountCents >= 0 {
      CentsToDecimalStringRoundTrip(p.totalAmountCents);
    } else {
      NegativeCentsNeverReadBack(p.totalAmountCents);
    }
    SectionReads(count, amount, tail, p.totalRequests);
    Reassociate(count, AmountKey, amount, tail);
  }

  lemma Reassociate(a: string, b: string, c: string, d: string)
    ensures a + b + c + d == a + (b + (c + d))
  {
  }

  /**
    Text laid out as the summary response reads back as its two sections when
    both read, and not at all when either does not.
   */
  lemma SummaryReadsBack(d: string, f: string, ds: Option<ProcessorSummary>, fs: Option<ProcessorSummary>)
    requires ReadSection(d + (SummaryMiddle + (f + SummaryClose)))
             == if ds.Some? then Some((ds.value, SummaryMiddle + (f + SummaryClose))) else None
    requires ReadSection(f + SummaryClose) == if fs.Some? then Some((fs.value, SummaryClose)) else None
    ensures ReadSummaryResponse(SummaryOpen + (d + (SummaryMiddle + (f + SummaryClose))))
            == if ds.Some? && fs.Some? then Some(PaymentSummary(ds.value, fs.value)) else None
  {
    StripConcat(SummaryOpen, d + (SummaryMiddle + (f + SummaryClose)));
    StripConcat(SummaryMiddle, f + SummaryClose);
  }

  /**
    Submitting `{"correlationId":"abc","amount":19.90}` to a fresh gateway whose
    default processor is judged healthy (by this instance's own probe after it
    acquires the marker, or because another instance holds the marker) and
    settles: the submission is accepted, and
    the summary then reports one default request of "19.90" and nothing under
    fallback.
   */
  lemma FirstPaymentScenario(body: string, now: int, viaDefault: AttemptInputs, viaFallback: AttemptInputs)
    requires |body| > 0
    requires IsHealthy(map[], true, DefaultTag, viaDefault.now, viaDefault.store, viaDefault.probe).healthy
    requires Settled(viaDefault.settlement)
    ensures var r := Submit(Gateway(NewPaymentProcessor(true), NewMemoryStorage()), body, JsonObject("abc", 1990), now,
                            viaDefault, viaFallback);
            && r.0 == Response(StatusAccepted, AcceptedBody)
            && GetPaymentsSummary(r.1.storage, "", None, "", None)
               == BuildSummaryResponse(PaymentSummary(ProcessorSummary(1, 1990), ZeroSummary))
    ensures SectionText(ProcessorSummary(1, 1990)) == "1,\"totalAmount\":19.90"
    ensures SectionText(ZeroSummary) == "0,\"totalAmount\":0"
  {
    var paid := Payment("abc", 1990, now, DefaultTag);
    var r := Submit(Gateway(NewPaymentProcessor(true), NewMemoryStorage()), body, JsonObject("abc", 1990), now,
                    viaDefault, viaFallback);
    AcceptedThroughDefault(body, now, viaDefault, viaFallback);
    OneDefaultPaymentSummary(now);
    RenderedExamples();
  }

  lemma AcceptedThroughDefault(body: string, now: int, viaDefault: AttemptInputs, viaFallback: AttemptInputs)
    requires |body| > 0
    requires IsHealthy(map[], true, DefaultTag, viaDefault.now, viaDefault.store, viaDefault.probe).healthy
    requires Settled(viaDefault.settlement)
    ensures var r := Submit(Gateway(NewPaymentProcessor(true), NewMemoryStorage()), body, JsonObject("abc", 1990), now,
                            viaDefault, viaFallback);
            && r.0 == Response(StatusAccepted, AcceptedBody)
            && r.1.storage == StorePayment(NewMemoryStorage(), Payment("abc", 1990, now, DefaultTag))
  {
    var g := Gateway(NewPaymentProcessor(true), NewMemoryStorage());
    DefaultFirst(g.processor, Payment("abc", 1990, now, ""), g.storage, viaDefault, viaFallback);
  }

  lemma OneDefaultPaymentSummary(now: int)
    ensures GetPaymentsSummary(StorePayment(NewMemoryStorage(), Payment("abc", 1990, now, DefaultTag)), "", None, "", None)
            == BuildSummaryResponse(PaymentSummary(ProcessorSummary(1, 1990), ZeroSummary))
  {
    var paid := Payment("abc", 1990, now, DefaultTag);
    var st := StorePayment(NewMemoryStorage(), paid);
    assert GetSummary(st, None, None) == PaymentSummary(Add(ZeroSummary, paid), ZeroSummary);
  }

  lemma RenderedExamples()
    ensures SectionText(ProcessorSummary(1, 1990)) == "1,\"totalAmount\":19.90"
    ensures SectionText(ZeroSummary) == "0,\"totalAmount\":0"
  {
    RenderedNumbers();
    LiteralSection();
  }

  lemma LiteralSection()
    ensures "1" + AmountKey + "19.90" == "1,\"totalAmount\":19.90"
    ensures "0" + AmountKey + "0" == "0,\"totalAmount\":0"
  {
  }

  lemma RenderedNumbers()
    ensures IntToString(1) == "1" && IntToString(0) == "0"
    ensures CentsToDecimalString(1990) == "19.90" && CentsToDecimalString(0) == "0"
  {
    assert NatToString(1) == [DigitChar(1)] == "1";
    assert NatToString(0) == [DigitChar(0)] == "0";
    CentsExamples();
  }
}

=== FILE: health.dfy ===
/**
  The health-check throttle in front of each processor (processor.go,
  isHealthy). The shared store's set-if-absent answer and the liveness
  endpoint's reply are inputs; the instance-local map of last probe times is
  explicit state.

  The module also models the store itself (a key with an expiry) to show the
  fleet-wide consequence: instances sharing a reachable store issue at most one
  probe per processor within any 5-second window.
 */
module Health {
  import opened Models

  /** Marker lifetime in the store, and the local self-throttle window. */
  const HealthWindow: int := 5 * Second

  const DefaultUrl: string := "http://payment-processor-default:8080"
  const FallbackUrl: string := "http://payment-processor-fallback:8080"

  /** The processor's base URL: the fallback URL exactly for "fallback", the default URL otherwise. */
  function ProcessorUrl(processorType: string): string {
    if processorType == FallbackTag then FallbackUrl else DefaultUrl
  }

  function HealthKey(processorType: string): string {
    "healthcheck:" + processorType
  }

  function HealthUri(processorType: string): string {
    ProcessorUrl(processorType) + "/payments/service-health"
  }

  /** The store's answer to SetNX: the marker was set by this call, was already there, or the store failed. */
  datatype StoreReply = Acquired | NotAcquired | StoreError

  /** The health endpoint's body, once read: unparsable, or a JSON value whose `failing` field reads as given. */
  datatype ProbeBody = Unparsable | Parsed(failing: bool)

  /** What the liveness GET returned within its 1-second timeout. */
  datatype ProbeReply = ProbeTransportError | ProbeResponse(status: int, body: ProbeBody)

  /**
    How the gateway reads a probe reply, in order: a transport error or a status
    other than 200 is ineligible, then an unparsable body, then `failing` decides.
   */
  function ProbeVerdict(reply: ProbeReply): (eligible: bool)
    ensures eligible <==> reply.ProbeResponse? && reply.status == 200 && reply.body.Parsed? && !reply.body.failing
  {
    match reply
    case ProbeTransportError => false
    case ProbeResponse(status, body) =>
      if status != 200 then false
      else match body
        case Unparsable => false
        case Parsed(failing) => !failing
  }

  /** The result of one health check: the local map afterwards, the verdict, and the probe URI if one was issued. */
  datatype Check = Check(lastHealthCheck: map<string, int>, healthy: bool, probed: Option<string>)

  /**
    One health check of `processorType` at time `now`. With a store present,
    anything but a fresh acquisition (including a store error) answers healthy
    at once. Otherwise a local probe time strictly less than 5 seconds old
    answers healthy; failing that, the time is recorded and a probe decides.
   */
  function IsHealthy(
    lastHealthCheck: map<string, int>, hasCache: bool, processorType: string,
    now: int, store: StoreReply, probe: ProbeReply): (c: Check)
    // a store that did not grant the marker short-circuits: no probe, no local change
    ensures hasCache && store != Acquired ==> c == Check(lastHealthCheck, true, None)
    // the local map throttles only once the store is absent or granted the marker
    ensures ((!hasCache || store == Acquired) && processorType in lastHealthCheck
             && now - lastHealthCheck[processorType] < HealthWindow)
            ==> c == Check(lastHealthCheck, true, None)
    // a probe is issued exactly when neither throttle applies, and is recorded first
    ensures c.probed.Some? <==>
              && (!hasCache || store == Acquired)
              && !(processorType in lastHealthCheck && now - lastHealthCheck[processorType] < HealthWindow)
    ensures c.probed.Some? ==>
              && c.probed.value == HealthUri(processorType)
              && c.lastHealthCheck == lastHealthCheck[processorType := now]
    // only an exact 200 with a parsed, non-failing body is eligible
    ensures c.probed.Some? ==>
              (c.healthy <==> probe.ProbeResponse? && probe.status == 200
                              && probe.body.Parsed? && !probe.body.failing)
    ensures c.probed.None? ==> c.healthy && c.lastHealthCheck == lastHealthCheck
  {
    if hasCache && store != Acquired then
      Check(lastHealthCheck, true, None)
    else if processorType in lastHealthCheck && now - lastHealthCheck[processorType] < HealthWindow then
      Check(lastHealthCheck, true, None)
    else
      Check(lastHealthCheck[processorType := now], ProbeVerdict(probe), Some(HealthUri(processorType)))
  }

  // ---------------------------------------------------------------------------
  // The shared store and the fleet

  /** A reachable store: each key maps to the clock reading at which it expires; a key lives until the clock passes that reading. */
  type Store = map<string, int>

  /** Set-if-absent with expiry: acquired exactly when the key is absent or already past its expiry. */
  function SetNX(store: Store, key: string, now: int, ttl: int): (res: (Store, bool))
    ensures res.1 <==> !(key in store && now <= store[key])
    ensures res.1 ==> res.0 == store[key := now + ttl]
    ensures !res.1 ==> res.0 == store
  {
    if key in store && now <= store[key] then (store, false) else (store[key := now + ttl], true)
  }

  /** One health check by one instance of the fleet. */
  datatype FleetCheck = FleetCheck(instance: nat, now: int, probe: ProbeReply)

  /**
    The number of liveness probes issued when the checks run in order against
    one shared store, each instance keeping its own local map.
   */
  function FleetProbes(store: Store, locals: seq<map<string, int>>, processorType: string, checks: seq<FleetCheck>): nat
    requires forall i :: 0 <= i < |checks| ==> checks[i].instance < |locals|
    decreases |checks|
  {
    if |checks| == 0 then 0
    else
      var k := checks[0];
      var (store', acquired) := SetNX(store, HealthKey(processorType), k.now, HealthWindow);
      var c := IsHealthy(locals[k.instance], true, processorType, k.now,
                         if acquired then Acquired else NotAcquired, k.probe);
      (if c.probed.Some? then 1 else 0)
        + FleetProbes(store', locals[k.instance := c.lastHealthCheck], processorType, checks[1..])
  }

  /** While the marker is held past every remaining check, nobody probes. */
  lemma {:induction false} HeldMarkerBlocksProbes(
    store: Store, locals: seq<map<string, int>>, processorType: string, checks: seq<FleetCheck>)
    requires forall i :: 0 <= i < |checks| ==> checks[i].instance < |locals|
    requires HealthKey(processorType) in store
    requires forall i :: 0 <= i < |checks| ==> checks[i].now <= store[HealthKey(processorType)]
    ensures FleetProbes(store, locals, processorType, checks) == 0
    decreases |checks|
  {
    if |checks| > 0 {
      var k := checks[0];
      var c := IsHealthy(locals[k.instance], true, processorType, k.now, NotAcquired, k.probe);
      HeldMarkerBlocksProbes(store, locals[k.instance := c.lastHealthCheck], processorType, checks[1..]);
    }
  }

  /**
    However many instances check the same processor, however they interleave,
    checks that all fall within one 5-second window issue at most one probe.
   */
  lemma {:induction false} AtMostOneProbePerWindow(
    store: Store, locals: seq<map<string, int>>, processorType: string, checks: seq<FleetCheck>, start: int)
    requires forall i :: 0 <= i < |checks| ==> checks[i].instance < |locals|
    requires forall i :: 0 <= i < |checks| ==> start <= checks[i].now < start + HealthWindow
    ensures FleetProbes(store, locals, processorType, checks) <= 1
    decreases |checks|
  {
    if |checks| > 0 {
      var k := checks[0];
      var key := HealthKey(processorType);
      var (store', acquired) := SetNX(store, key, k.now, HealthWindow);
      var c := IsHealthy(locals[k.instance], true, processorType, k.now,
                         if acquired then Acquired else NotAcquired, k.probe);
      var locals' := locals[k.instance := c.lastHealthCheck];
      if acquired {
        HeldMarkerBlocksProbes(store', locals', processorType, checks[1..]);
      } else {
        assert c.probed.None?;
        AtMostOneProbePerWindow(store', locals', processorType, checks[1..], start);
      }
    }
  }
}

=== FILE: models.dfy ===
/**
  The records shared by the payment gateway: an accepted payment, the
  per-processor aggregates the ledger keeps, and the error values the
  processor package produces.

  Timestamps are integers counting nanoseconds (the resolution of the
  breaker's `lastFailTime` and of Go's `time.Time` comparisons).
 */
module Models {

  datatype Option<+T> = None | Some(value: T)

  /** One second, in the nanosecond clock used throughout the model. */
  const Second: int := 1_000_000_000

  /** The tag a payment receives when the default processor settles it. */
  const DefaultTag: string := "default"

  /** The tag a payment receives when the fallback processor settles it. */
  const FallbackTag: string := "fallback"

  /** An accepted payment. `processorType` is empty until a processor settles it. */
  datatype Payment = Payment(
    correlationId: string,
    amountCents: int,
    requestedAt: int,
    processorType: string)

  /** Request count and amount sum over the payments of one processor. */
  datatype ProcessorSummary = ProcessorSummary(totalRequests: int, totalAmountCents: int)

  /** The two aggregates returned by a summary query. */
  datatype PaymentSummary = PaymentSummary(default: ProcessorSummary, fallback: ProcessorSummary)

  const ZeroSummary: ProcessorSummary := ProcessorSummary(0, 0)

  /** The ledger counts every payment whose tag is not exactly "default" as fallback. */
  predicate IsDefault(p: Payment) {
    p.processorType == DefaultTag
  }

  /** A summary with one more payment of the given amount. */
  function Add(s: ProcessorSummary, p: Payment): ProcessorSummary
  {
    ProcessorSummary(s.totalRequests + 1, s.totalAmountCents + p.amountCents)
  }

  /** Why a settlement attempt did not succeed. */
  datatype Error =
    | CircuitOpen                     // the breaker rejected the call without running it
    | Unhealthy(processorType: string) // the health check declared the processor ineligible
    | TransportError                  // the HTTP client returned an error
    | BadStatus(status: int)          // the processor answered with a non-2xx status
    | DeadlineExceeded                // the shared 8-second context fired first
}

=== FILE: money.dfy ===
/**
  Decimal rendering of integer cent amounts (processor.go, CentsToDecimalString),
  the `%d` rendering it relies on, and a reader for the rendered text.

  Go's `/` and `%` truncate toward zero; Dafny's are Euclidean. The model
  spells out Go's operators as `GoQuo` and `GoRem` so that negative inputs
  follow Go.
 */
module Money {
  import opened Models

  // ---------------------------------------------------------------------------
  // Go integer division

  /** Go's `a / b` for a positive divisor: the quotient truncated toward zero. */
  function GoQuo(a: int, b: int): int
    requires b > 0
  {
    if a >= 0 then a / b else -((-a) / b)
  }

  /** Go's `a % b` for a positive divisor: the remainder takes the sign of `a`. */
  function GoRem(a: int, b: int): (r: int)
    requires b > 0
    ensures a == GoQuo(a, b) * b + r
    ensures a >= 0 ==> 0 <= r < b
    ensures a < 0 ==> -b < r <= 0
  {
    a - GoQuo(a, b) * b
  }

  // ---------------------------------------------------------------------------
  // Digits

  predicate IsDigit(c: char) {
    '0' <= c <= '9'
  }

  predicate AllDigits(s: string) {
    forall i :: 0 <= i < |s| ==> IsDigit(s[i])
  }

  function DigitChar(d: int): (c: char)
    requires 0 <= d < 10
    ensures IsDigit(c)
  {
    (('0' as int) + d) as char
  }

  function DigitValue(c: char): int
    requires IsDigit(c)
  {
    (c as int) - ('0' as int)
  }

  /** Go's `fmt.Sprintf("%d", n)` for a non-negative `n`: decimal digits without leading zeros. */
  function NatToString(n: nat): (s: string)
    ensures |s| >= 1 && AllDigits(s)
    ensures |s| > 1 ==> s[0] != '0'
    ensures n < 10 <==> |s| == 1
  {
    if n < 10 then [DigitChar(n)] else NatToString(n / 10) + [DigitChar(n % 10)]
  }

  /** The number a string of decimal digits denotes. */
  function DigitsValue(s: string): nat
    requires AllDigits(s)
  {
    if |s| == 0 then 0 else DigitsValue(s[..|s| - 1]) * 10 + DigitValue(s[|s| - 1])
  }

  /** Reading back the `%d` rendering of a natural number gives that number. */
  lemma {:induction false} NatToStringRoundTrip(n: nat)
    ensures DigitsValue(NatToString(n)) == n
  {
    if n >= 10 {
      var s := NatToString(n);
      assert s[..|s| - 1] == NatToString(n / 10);
      NatToStringRoundTrip(n / 10);
    }
  }

  /** Go's `fmt.Sprintf("%d", i)` for any integer. */
  function IntToString(i: int): (s: string)
    ensures i >= 0 ==> s == NatToString(i)
    ensures i < 0 ==> s == "-" + NatToString(-i)
  {
    if i < 0 then "-" + NatToString(-i) else NatToString(i)
  }

  /** Reads an optionally signed decimal integer, the inverse of `IntToString`. */
  function ParseInt(s: string): Option<int>
  {
    if |s| > 0 && s[0] == '-' then
      if |s| > 1 && AllDigits(s[1..]) then Some(-(DigitsValue(s[1..]) as int)) else None
    else if |s| > 0 && AllDigits(s) then Some(DigitsValue(s))
    else None
  }

  lemma IntToStringRoundTrip(i: int)
    ensures ParseInt(IntToString(i)) == Some(i)
  {
    var s := IntToString(i);
    if i < 0 {
      var n := NatToString(-i);
      assert s == "-" + n;
      assert s[0] == '-' && |s| > 1;
      assert s[1..] == n;
      NatToStringRoundTrip(-i);
    } else {
      var n := NatToString(i);
      assert s == n;
      assert IsDigit(s[0]);
      NatToStringRoundTrip(i);
    }
  }

  // ---------------------------------------------------------------------------
  // Cents as the gateway writes them

  /** The two-character rendering of a cent fraction 0..99, zero-padded. */
  function TwoDigits(f: int): (s: string)
    requires 0 <= f < 100
    ensures |s| == 2 && AllDigits(s)
  {
    [DigitChar(f / 10), DigitChar(f % 10)]
  }

  /**
    `CentsToDecimalString` exactly as the gateway computes it: the `%d` of the
    truncated quotient, replaced wholesale by "-" when `cents` is negative, then,
    unless the truncated remainder is zero, ".", a "0" when that remainder is
    below ten, and the `%d` of the remainder. The text is never empty, is made
    of digits, "-" and "." only, and starts with "-" exactly for a negative amount.
   */
  function CentsToDecimalString(cents: int): (r: string)
    ensures |r| > 0 && NumberText(r)
    ensures r[0] == '-' <==> cents < 0
  {
    var whole := GoQuo(cents, 100);
    var frac := GoRem(cents, 100);
    var res := if cents < 0 then "-" else IntToString(whole);
    IntIsNumberText(whole);
    if frac == 0 then res
    else
      var pad := if frac < 10 then "0" else "";
      IntIsNumberText(frac);
      NumberTextConcat(res, ".");
      NumberTextConcat(res + ".", pad);
      NumberTextConcat(res + "." + pad, IntToString(frac));
      res + "." + pad + IntToString(frac)
  }

  /** The characters a rendered number is made of: decimal digits, "-" and ".". */
  predicate NumberText(s: string) {
    forall i :: 0 <= i < |s| ==> IsDigit(s[i]) || s[i] == '-' || s[i] == '.'
  }

  lemma NumberTextConcat(a: string, b: string)
    requires NumberText(a) && NumberText(b)
    ensures NumberText(a + b)
  {
  }

  lemma IntIsNumberText(i: int)
    ensures NumberText(IntToString(i))
  {
    if i < 0 {
      NumberTextConcat("-", NatToString(-i));
    }
  }

  /**
    What Go's rendering is: for a non-negative amount, the whole units
    alone when the amount is a multiple of 100, otherwise the whole units, ".",
    and exactly two fraction digits; for a negative amount, text starting with
    "-", and just "-" for a negative multiple of 100.
   */
  lemma CentsToDecimalStringShape(cents: int)
    ensures cents >= 0 && cents % 100 == 0 ==> CentsToDecimalString(cents) == NatToString(cents / 100)
    ensures cents >= 0 && cents % 100 != 0 ==>
              CentsToDecimalString(cents) == NatToString(cents / 100) + "." + TwoDigits(cents % 100)
    ensures cents < 0 ==> |CentsToDecimalString(cents)| >= 1 && CentsToDecimalString(cents)[0] == '-'
    ensures cents < 0 && cents % 100 == 0 ==> CentsToDecimalString(cents) == "-"
  {
    var frac := GoRem(cents, 100);
    if cents >= 0 && frac != 0 {
      PaddingIsTwoDigits(cents, frac);
    }
  }

  /** For a non-negative remainder 1..99 Go's padding gives exactly two digits. */
  lemma PaddingIsTwoDigits(cents: int, frac: int)
    requires cents >= 0 && frac == GoRem(cents, 100) && frac != 0
    ensures (if frac < 10 then "0" else "") + IntToString(frac) == TwoDigits(frac)
  {
    if frac >= 10 {
      assert NatToString(frac) == NatToString(frac / 10) + [DigitChar(frac % 10)];
    }
  }

  // ---------------------------------------------------------------------------
  // Cents with the sign rendered as intended

  /** Rendering of a non-negative amount: whole units, then "." and two digits unless whole. */
  function FormatUnsigned(c: nat): (r: string)
    ensures |r| > 0 && IsDigit(r[0])
    ensures c % 100 == 0 ==> AllDigits(r)
    ensures c % 100 != 0 ==> |r| >= 4 && r[|r| - 3] == '.'
  {
    if c % 100 == 0 then NatToString(c / 100)
    else NatToString(c / 100) + "." + TwoDigits(c % 100)
  }

  /**
    The rendering the gateway evidently intends: a single "-" in front of the
    rendering of the magnitude, so -150 renders as "-1.50".
   */
  function FormatCents(cents: int): (r: string)
    ensures ParseCents(r) == Some(cents)
    ensures cents < 0 <==> (|r| > 0 && r[0] == '-')
  {
    var magnitude: nat := if cents < 0 then -cents else cents;
    var u := FormatUnsigned(magnitude);
    FormatUnsignedRoundTrip(magnitude);
    SignedRoundTrip(u, magnitude);
    if cents < 0 then "-" + u else u
  }

  /** Reads the unsigned part of a rendered amount: digits, optionally "." and exactly two digits. */
  function ParseUnsigned(s: string): Option<int>
  {
    if |s| >= 4 && s[|s| - 3] == '.' then
      var whole := s[..|s| - 3];
      var frac := s[|s| - 2..];
      if AllDigits(whole) && AllDigits(frac) then Some(DigitsValue(whole) * 100 + DigitsValue(frac))
      else None
    else if |s| >= 1 && AllDigits(s) then Some(DigitsValue(s) * 100)
    else None
  }

  /** Reads a rendered amount back into cents; `None` for text no correct rendering produces. */
  function ParseCents(s: string): Option<int>
  {
    if |s| > 0 && s[0] == '-' then
      match ParseUnsigned(s[1..])
      case Some(v) => Some(-v)
      case None => None
    else ParseUnsigned(s)
  }

  /** Text with a digit in front reads as its unsigned value, and with "-" in front as the negation. */
  lemma SignedRoundTrip(u: string, v: int)
    requires |u| > 0 && IsDigit(u[0]) && ParseUnsigned(u) == Some(v)
    ensures ParseCents(u) == Some(v)
    ensures ParseCents("-" + u) == Some(-v)
  {
    assert ("-" + u)[1..] == u;
  }

  lemma TwoDigitsValue(f: int)
    requires 0 <= f < 100
    ensures DigitsValue(TwoDigits(f)) == f
  {
    var t := TwoDigits(f);
    assert DigitValue(t[0]) == f / 10 && DigitValue(t[1]) == f % 10;
    assert t[..1][..0] == [];
    assert DigitsValue(t[..1]) == DigitsValue(t[..1][..0]) * 10 + DigitValue(t[0]);
    assert DigitsValue(t) == DigitsValue(t[..1]) * 10 + DigitValue(t[1]);
  }

  lemma FormatUnsignedRoundTrip(c: nat)
    ensures ParseUnsigned(FormatUnsigned(c)) == Some(c)
  {
    var s := FormatUnsigned(c);
    var n := NatToString(c / 100);
    NatToStringRoundTrip(c / 100);
    if c % 100 != 0 {
      var t := TwoDigits(c % 100);
      assert s == n + "." + t;
      assert s[..|s| - 3] == n;
      assert s[|s| - 2..] == t;
      TwoDigitsValue(c % 100);
    } else {
      assert s == n;
      if |s| >= 4 {
        assert IsDigit(s[|s| - 3]);
      }
    }
  }

  /** On every non-negative amount the two renderings agree. */
  lemma FormatAgreesWhenNonNegative(cents: int)
    requires cents >= 0
    ensures CentsToDecimalString(cents) == FormatCents(cents)
  {
    CentsToDecimalStringShape(cents);
  }

  /** Go's rendering of a non-negative amount reads back as that amount. */
  lemma CentsToDecimalStringRoundTrip(cents: int)
    requires cents >= 0
    ensures ParseCents(CentsToDecimalString(cents)) == Some(cents)
  {
    FormatAgreesWhenNonNegative(cents);
  }

  /** Reference renderings, as `CentsToDecimalString` computes them. */
  lemma CentsExamples()
    ensures CentsToDecimalString(0) == "0"
    ensures CentsToDecimalString(100) == "1"
    ensures CentsToDecimalString(5) == "0.05"
    ensures CentsToDecimalString(150) == "1.50"
    ensures CentsToDecimalString(1990) == "19.90"
  {
    SmallRenderings();
    RendersAs(0, "0");
    RendersAs(100, "1");
    RendersAs(5, "0" + "." + "05");
    RendersAs(150, "1" + "." + "50");
    RendersAs(1990, "19" + "." + "90");
  }

  lemma RendersAs(cents: int, text: string)
    requires cents >= 0 && FormatUnsigned(cents) == text
    ensures CentsToDecimalString(cents) == text
  {
    FormatAgreesWhenNonNegative(cents);
  }

  lemma SmallRenderings()
    ensures NatToString(0) == "0" && NatToString(1) == "1" && NatToString(19) == "19"
    ensures TwoDigits(5) == "05" && TwoDigits(50) == "50" && TwoDigits(90) == "90"
  {
    assert NatToString(0) == [DigitChar(0)];
    assert NatToString(1) == [DigitChar(1)];
    assert NatToString(19) == NatToString(1) + [DigitChar(9)];
    assert TwoDigits(5) == [DigitChar(0), DigitChar(5)];
    assert TwoDigits(50) == [DigitChar(5), DigitChar(0)];
    assert TwoDigits(90) == [DigitChar(9), DigitChar(0)];
  }

  /**
    A negative amount is not rendered as intended: -100 becomes "-" and -150
    becomes "-.0-50", and neither reads back as an amount, whereas the intended
    rendering gives "-1" and "-1.50".
   */
  lemma NegativeCentsMisrendered()
    ensures CentsToDecimalString(-100) == "-"
    ensures CentsToDecimalString(-150) == "-.0-50"
    ensures ParseCents(CentsToDecimalString(-100)) == None
    ensures ParseCents(CentsToDecimalString(-150)) == None
    ensures FormatCents(-100) == "-1"
    ensures FormatCents(-150) == "-1.50"
  {
    assert GoRem(-150, 100) == -50;
    assert IntToString(-50) == "-50";
    assert FormatUnsigned(150) == "1.50";
    assert FormatUnsigned(100) == "1";
  }

  /** Every negative amount is rendered as text that does not read back. */
  lemma {:induction false} NegativeCentsNeverReadBack(cents: int)
    requires cents < 0
    ensures ParseCents(CentsToDecimalString(cents)) == None
  {
    var r := CentsToDecimalString(cents);
    var frac := GoRem(cents, 100);
    if frac != 0 {
      var tail := IntToString(frac);
      var pad := if frac < 10 then "0" else "";
      assert r == "-" + "." + pad + tail;
      assert tail[0] == '-';
      var u := r[1..];
      assert u == "." + pad + tail;
      assert !IsDigit(u[0]);
      if |u| >= 4 && u[|u| - 3] == '.' {
        var whole := u[..|u| - 3];
        if |whole| > 0 {
          assert whole[0] == '.';
        }
        // the whole part is "." + "0" + ..., which always holds a non-digit
        assert |pad + tail| >= 2;
        assert u[0] == '.' && |u| - 3 >= 1 ==> !AllDigits(whole);
      }
    }
  }
}

=== FILE: storage.dfy ===
/**
  The in-memory ledger (memory.go, MemoryStorage): an append-only history of
  settled payments plus running per-processor totals, and a summary query
  that returns the running totals when unbounded and rescans the history for
  an inclusive time window otherwise.

  The model is sequential: the read-write lock only makes each operation
  atomic, which a pure function already is.
 */
module Storage {
  import opened Models

  datatype MemoryStorage = MemoryStorage(
    payments: seq<Payment>,
    defaultSummary: ProcessorSummary,
    fallbackSummary: ProcessorSummary)

  /** True when `t` lies in the window: not before `from` and not after `to`; an absent bound does not filter. */
  predicate InWindow(t: int, from: Option<int>, to: Option<int>) {
    (from.None? || !(t < from.value)) && (to.None? || !(t > to.value))
  }

  /** Counts one payment in the summary of its processor class. */
  function Count(acc: PaymentSummary, p: Payment): PaymentSummary {
    if IsDefault(p) then acc.(default := Add(acc.default, p))
    else acc.(fallback := Add(acc.fallback, p))
  }

  /**
    The scan: both summaries over the in-window payments of `ps`, accumulated
    front to back. Each payment is counted at most once, so the two request
    counts are non-negative and together at most the history's length.
   */
  function Tally(ps: seq<Payment>, from: Option<int>, to: Option<int>): (r: PaymentSummary)
    ensures r.default.totalRequests >= 0 && r.fallback.totalRequests >= 0
    ensures r.default.totalRequests + r.fallback.totalRequests <= |ps|
    decreases |ps|
  {
    if |ps| == 0 then PaymentSummary(ZeroSummary, ZeroSummary)
    else
      var acc := Tally(ps[..|ps| - 1], from, to);
      var p := ps[|ps| - 1];
      if InWindow(p.requestedAt, from, to) then Count(acc, p) else acc
  }

  /** The ledger's invariant: the running summaries are the unbounded scan of the history. */
  predicate Valid(s: MemoryStorage) {
    PaymentSummary(s.defaultSummary, s.fallbackSummary) == Tally(s.payments, None, None)
  }

  function NewMemoryStorage(): (s: MemoryStorage)
    ensures s.payments == [] && Valid(s)
  {
    MemoryStorage([], ZeroSummary, ZeroSummary)
  }

  /**
    Appends one copy of the payment and adds it to exactly one running summary:
    the default one when the tag is "default", the fallback one for any other tag.
   */
  function StorePayment(s: MemoryStorage, p: Payment): (s': MemoryStorage)
    ensures s'.payments == s.payments + [p]
    ensures |s'.payments| == |s.payments| + 1 && s'.payments[..|s.payments|] == s.payments
    ensures IsDefault(p) ==> s'.defaultSummary == Add(s.defaultSummary, p) && s'.fallbackSummary == s.fallbackSummary
    ensures !IsDefault(p) ==> s'.fallbackSummary == Add(s.fallbackSummary, p) && s'.defaultSummary == s.defaultSummary
    ensures Valid(s) ==> Valid(s')
  {
    var s' := if IsDefault(p) then s.(payments := s.payments + [p], defaultSummary := Add(s.defaultSummary, p))
              else s.(payments := s.payments + [p], fallbackSummary := Add(s.fallbackSummary, p));
    assert s'.payments[..|s'.payments| - 1] == s.payments;
    s'
  }

  /**
    The summary query. Unbounded, it returns the running totals; with either
    bound present, it returns the scan over the inclusive window. On a valid
    ledger both paths give the scan, so the fast path loses nothing.
   */
  function GetSummary(s: MemoryStorage, from: Option<int>, to: Option<int>): (r: PaymentSummary)
    ensures Valid(s) ==> r == Tally(s.payments, from, to)
    ensures (from.Some? || to.Some?) ==> r == Tally(s.payments, from, to)
    ensures from.None? && to.None? ==> r == PaymentSummary(s.defaultSummary, s.fallbackSummary)
  {
    if from.None? && to.None? then PaymentSummary(s.defaultSummary, s.fallbackSummary)
    else Tally(s.payments, from, to)
  }

  /** The scan loop over the history, as the gateway writes it. */
  method ScanWindow(payments: seq<Payment>, from: Option<int>, to: Option<int>) returns (r: PaymentSummary)
    ensures r == Tally(payments, from, to)
  {
    var defaultSummary := ZeroSummary;
    var fallbackSummary := ZeroSummary;
    var i := 0;
    while i < |payments|
      invariant 0 <= i <= |payments|
      invariant PaymentSummary(defaultSummary, fallbackSummary) == Tally(payments[..i], from, to)
    {
      var payment := payments[i];
      assert payments[..i + 1][..i] == payments[..i];
      if from.Some? && payment.requestedAt < from.value {
        i := i + 1;
        continue;
      }
      if to.Some? && payment.requestedAt > to.value {
        i := i + 1;
        continue;
      }
      if payment.processorType == DefaultTag {
        defaultSummary := Add(defaultSummary, payment);
      } else {
        fallbackSummary := Add(fallbackSummary, payment);
      }
      i := i + 1;
    }
    assert payments[..i] == payments;
    r := PaymentSummary(defaultSummary, fallbackSummary);
  }

  // ---------------------------------------------------------------------------
  // The scan against independent definitions

  /** The in-window payments of `ps`, in order. */
  function Window(ps: seq<Payment>, from: Option<int>, to: Option<int>): (w: seq<Payment>)
    ensures |w| <= |ps|
    ensures forall p :: p in w <==> p in ps && InWindow(p.requestedAt, from, to)
    decreases |ps|
  {
    if |ps| == 0 then []
    else
      var rest := Window(ps[..|ps| - 1], from, to);
      var p := ps[|ps| - 1];
      assert ps == ps[..|ps| - 1] + [p];
      if InWindow(p.requestedAt, from, to) then rest + [p] else rest
  }

  /** The sum of the amounts of `ps`. */
  function SumAmounts(ps: seq<Payment>): int
    decreases |ps|
  {
    if |ps| == 0 then 0 else SumAmounts(ps[..|ps| - 1]) + ps[|ps| - 1].amountCents
  }

  /** The payments of `ps` the ledger classifies as default (`keep`) or as fallback (`!keep`). */
  function OfClass(ps: seq<Payment>, keep: bool): (c: seq<Payment>)
    ensures forall p :: p in c <==> p in ps && IsDefault(p) == keep
    decreases |ps|
  {
    if |ps| == 0 then []
    else
      var rest := OfClass(ps[..|ps| - 1], keep);
      var p := ps[|ps| - 1];
      assert ps == ps[..|ps| - 1] + [p];
      if IsDefault(p) == keep then rest + [p] else rest
  }

  lemma WindowSnoc(ps: seq<Payment>, p: Payment, from: Option<int>, to: Option<int>)
    ensures Window(ps + [p], from, to)
            == if InWindow(p.requestedAt, from, to) then Window(ps, from, to) + [p] else Window(ps, from, to)
  {
    assert (ps + [p])[..|ps|] == ps;
  }

  lemma OfClassSnoc(ws: seq<Payment>, p: Payment, keep: bool)
    ensures OfClass(ws + [p], keep) == if IsDefault(p) == keep then OfClass(ws, keep) + [p] else OfClass(ws, keep)
  {
    assert (ws + [p])[..|ws|] == ws;
  }

  lemma SumAmountsSnoc(ws: seq<Payment>, p: Payment)
    ensures SumAmounts(ws + [p]) == SumAmounts(ws) + p.amountCents
  {
    assert (ws + [p])[..|ws|] == ws;
  }

  /** The summary one class gets from a sequence of payments: their count and amount sum. */
  function ClassSummary(ws: seq<Payment>, keep: bool): ProcessorSummary {
    var c := OfClass(ws, keep);
    ProcessorSummary(|c|, SumAmounts(c))
  }

  lemma ClassSummarySnoc(ws: seq<Payment>, p: Payment, keep: bool)
    ensures ClassSummary(ws + [p], keep)
            == if IsDefault(p) == keep then Add(ClassSummary(ws, keep), p) else ClassSummary(ws, keep)
  {
    OfClassSnoc(ws, p, keep);
    SumAmountsSnoc(OfClass(ws, keep), p);
  }

  /**
    A bounded summary counts a payment iff it is in the window and sorts it by
    tag: each summary is the request count and amount sum of the in-window
    payments of its class.
   */
  lemma {:induction false} TallyIsWindowByClass(ps: seq<Payment>, from: Option<int>, to: Option<int>)
    ensures Tally(ps, from, to).default == ClassSummary(Window(ps, from, to), true)
    ensures Tally(ps, from, to).fallback == ClassSummary(Window(ps, from, to), false)
    decreases |ps|
  {
    if |ps| > 0 {
      var init := ps[..|ps| - 1];
      var p := ps[|ps| - 1];
      assert ps == init + [p];
      TallyIsWindowByClass(init, from, to);
      WindowSnoc(init, p, from, to);
      if InWindow(p.requestedAt, from, to) {
        ClassSummarySnoc(Window(init, from, to), p, true);
        ClassSummarySnoc(Window(init, from, to), p, false);
      }
    }
  }

  /** The two summaries of any window together count its payments, at most the whole history. */
  lemma {:induction false} WindowRequestCount(ps: seq<Payment>, from: Option<int>, to: Option<int>)
    ensures Tally(ps, from, to).default.totalRequests + Tally(ps, from, to).fallback.totalRequests
            == |Window(ps, from, to)|
    ensures |Window(ps, from, to)| <= |ps|
    decreases |ps|
  {
    if |ps| > 0 {
      WindowRequestCount(ps[..|ps| - 1], from, to);
    }
  }

  /** The unbounded totals of both summaries add up to the sum of every stored amount. */
  lemma {:induction false} TotalAmountIsSum(ps: seq<Payment>)
    ensures Tally(ps, None, None).default.totalAmountCents + Tally(ps, None, None).fallback.totalAmountCents
            == SumAmounts(ps)
    decreases |ps|
  {
    if |ps| > 0 {
      TotalAmountIsSum(ps[..|ps| - 1]);
    }
  }

  /** A ledger of positive amounts has non-negative totals in every window. */
  lemma {:induction false} TallyNonNegative(ps: seq<Payment>, from: Option<int>, to: Option<int>)
    requires forall i :: 0 <= i < |ps| ==> ps[i].amountCents > 0
    ensures Tally(ps, from, to).default.totalAmountCents >= 0
    ensures Tally(ps, from, to).fallback.totalAmountCents >= 0
    ensures Tally(ps, from, to).default.totalRequests >= 0
    ensures Tally(ps, from, to).fallback.totalRequests >= 0
    decreases |ps|
  {
    if |ps| > 0 {
      TallyNonNegative(ps[..|ps| - 1], from, to);
    }
  }

  /** The ledger after storing each payment in order, from empty. */
  function StoreAll(ps: seq<Payment>): MemoryStorage
    decreases |ps|
  {
    if |ps| == 0 then NewMemoryStorage() else StorePayment(StoreAll(ps[..|ps| - 1]), ps[|ps| - 1])
  }

  /**
    Any ledger built by storing payments holds them in order and stays valid,
    so the unbounded query equals the full scan over its history.
   */
  lemma {:induction false} StoreAllValid(ps: seq<Payment>)
    ensures StoreAll(ps).payments == ps
    ensures Valid(StoreAll(ps))
    ensures GetSummary(StoreAll(ps), None, None) == Tally(ps, None, None)
    decreases |ps|
  {
    if |ps| > 0 {
      StoreAllValid(ps[..|ps| - 1]);
      assert ps[..|ps| - 1] + [ps[|ps| - 1]] == ps;
    }
  }
}
